=== FILE: README.md ===
# Request validation and error reporting, modelled in Dafny

This project models the two pure pieces of the validation layer of a small
Node.js/TypeScript service:

- `src/utils/validation.ts`: the request sanitizer `trimStrings`, the
  conditions behind the `IsNullable` and `IsUndefinable` rules, the `validate`
  and `defaultMessage` of the `IsFormattedDate` rule, and the result/exception
  flow of `transformToClass`, `transformToClassUnsafe` and `transformToRequest`;
- `src/utils/errors.ts`: the `HttpErrorResponse` and `TransformError` error
  objects, the error-forest walk `getChildrenErrors` and the report renderer
  `parseValidationErrors`.

Layout:

| file | module | contents |
|---|---|---|
| `wrappers.dfy` | `Wrappers` | `Option` and `Result` (a call's completion: returned value or thrown error) |
| `js_string.dfy` | `JsString` | JavaScript `trim`, `split`, `lastIndexOf`, `Array.join` and UTF-16 `length` on `seq<char>` |
| `js_value.dfy` | `JsValue` | JavaScript values; an object as its ordered own properties; property read and write |
| `errors.dfy` | `Errors` | the error objects, `getChildrenErrors`, `parseValidationErrors`, and a path-free pre-order reference walk |
| `validation.dfy` | `Validation` | `trimStrings`, the conditional rules, the date rule, the transform entry points |

The foreign libraries are parameters. class-transformer's `plainToClass` is a
function `(ClassType, Value) -> Result<Value, ErrorObject>`. class-validator's
`validate` is a function `(Value, ValidatorOptions) -> Result<Validated, ErrorObject>`,
where `Validated` holds the instance as validation leaves it (with
`whitelist`, class-validator deletes undeclared properties from the instance
itself, and that is the object `transformToClass` returns) and the error forest.
In both, a `Failure` stands for what the library throws, modelled as an error
object with a string `message`. date-fns'
`isValid(parse(value, template, new Date()))` is a function
`(value, template) -> Result<bool, ErrorObject>` (`Validation.DateParser`):
the validity of the parsed date, or the `RangeError` that `parse` throws on
some templates. The reference date `new Date()` (a clock read) is folded into
that function. An `async` call that is awaited is modelled as an
ordinary call. A rejected promise is modelled as a thrown error.

In these places the model follows the code as written:

- The report is the `";"`-join of the constraint messages in pre-order. The
  dotted property paths `getChildrenErrors` computes never appear in it
  (`Errors.ReportIgnoresPaths`, `Errors.RenamingKeepsReport`).
- `transformToRequest` does not render the report at all. On a validation
  failure the 400 response's body is the `TransformError` itself, with the
  raw forest, and its message is `TransformError: <class name>`
  (`Validation.RequestValidationFailureBody`).
- A node is emitted when its constraints object is present, even when it is
  empty. Such a node contributes an empty fragment.
- Assigning to the key `__proto__` on the `{}` that `trimStrings` fills runs
  the inherited `__proto__` setter. The entry is not copied (`JsValue.Put`,
  `Validation.TrimStringsEntrywise`).
- `split("/")` always yields at least one segment, so the "no segment" case
  of the date rule never happens. The last-segment length check always runs.

## Model

| member | source | states |
|---|---|---|
| `JsString.Trim` | src/utils/validation.ts:71 | `trim` removes a whitespace prefix and a whitespace suffix (the ECMAScript WhiteSpace and LineTerminator characters) and leaves neither end whitespace |
| `JsString.TrimUnique` | src/utils/validation.ts:71 | only one string is a trimmed form of a given string, so `Trim` is the trimmed form |
| `JsString.TrimIdempotent` | src/utils/validation.ts:71 | trimming a trimmed string changes nothing |
| `JsString.Split` | src/utils/validation.ts:128-132 | `split` always yields at least one segment and no segment contains the separator |
| `JsString.JoinSplit` | src/utils/validation.ts:128-130 | joining the segments of a split with the separator gives back the original string |
| `JsString.Join` | src/utils/errors.ts:46 | no contract of its own; characterised by `JsString.JoinSplit` and `JsString.SplitJoin` |
| `JsString.Utf16Length` | src/utils/validation.ts:132 | a string's `length` counts one unit per code point up to U+FFFF and two above, so it lies between the code-point count and twice it |
| `JsString.SplitJoin` | src/utils/errors.ts:46 | splitting a join of at least one separator-free piece gives back the pieces |
| `JsString.LastSegmentAfterLastSep` | src/utils/validation.ts:132 | the last segment of `split("/")` is exactly the text after the last `/`, or the whole string when it has none |
| `JsValue.Get` | src/utils/validation.ts:89 | `obj[propertyName]` is `undefined` for a property the object lacks |
| `JsValue.GetFindsEntry` | src/utils/validation.ts:89 | on an object, reading a key it has gives the value stored under that key |
| `JsValue.Put` | src/utils/validation.ts:71-73 | `result[key] = v` for a key the object lacks appends the property at the end, except that a write to `__proto__` adds no own property |
| `JsValue.PutThenGet` | src/utils/validation.ts:71-73 | after `result[key] = v`, `key` reads `v` (when it is not `__proto__`) and every other key's own value is unchanged |
| `Validation.TrimStrings` | src/utils/validation.ts:65-78 | no contract of its own; characterised by `Validation.TrimStringsEntrywise` |
| `Validation.TrimValue` | src/utils/validation.ts:70-74 | a string value becomes its trimmed form; any other value, a nested object or array included, is kept as it is |
| `JsValue.WithoutProtoKeyKeeps` | src/utils/validation.ts:68-73 | the entries that survive being copied onto `{}` are exactly those not keyed `__proto__` |
| `Validation.TrimStringsEntrywise` | src/utils/validation.ts:65-77 | the result has exactly the input's keys other than `__proto__`, in the same order, and no key twice. String values are trimmed. Every other value is passed through unchanged |
| `Validation.TrimStringsIdempotent` | src/utils/validation.ts:70-74 | on an object, applying `trimStrings` twice equals applying it once |
| `Validation.TrimStringsKeepsSettled` | src/utils/validation.ts:70-74 | an object without a `__proto__` key whose values are already trimmed comes back unchanged |
| `Validation.NestedObjectsUntouched` | src/utils/validation.ts:69-74 | a nested object is kept as it is, with its inner strings not trimmed (one level only); under the key `__proto__` it yields no entry |
| `Validation.ConditionHolds` | src/utils/validation.ts:89-105 | no contract of its own; characterised by `Validation.ConditionsSkipExactly` |
| `Validation.ValidatorsRun` | src/utils/validation.ts:80-89 | a field's other validators run exactly when every conditional rule on it holds |
| `Validation.ConditionsSkipExactly` | src/utils/validation.ts:80-105 | `IsNullable` skips exactly on `null` and `IsUndefinable` exactly on `undefined`, including an absent property. Neither skips on the other's value. Both together skip exactly on those two values |
| `Validation.LastSegmentsDiffer` | src/utils/validation.ts:128-135 | the length check compares the UTF-16 lengths of the text after the last `/` of the template and of the value |
| `Validation.IsFormattedDate` | src/utils/validation.ts:124-139 | the date rule is false for a non-string and false when the last `/`-segment lengths (in UTF-16 units) differ. It is true exactly when the value is a string, the text after the last `/` of the value and of the template have equal length, and the parser accepts the value. It throws only when it reaches the parser and the parser throws, and whenever the parser it reaches throws, it throws that error |
| `Validation.DateRuleShortCircuits` | src/utils/validation.ts:125-136 | for a non-string or a last-segment length mismatch, every parser gives the same answer, false, and none can throw: the parser is not consulted |
| `Validation.DateDefaultMessage` | src/utils/validation.ts:121-123 | the default message is the property name, then ` must be a valid `, then the template, then ` date string` |
| `Validation.DateDefaultMessageNamesField` | src/utils/validation.ts:122 | for one template, two fields with the same default message are the same field |
| `Validation.ForValidation` | src/utils/validation.ts:30-33 | the options passed to `validate` keep `whitelist`, `groups` and every other option the caller set, and ask for errors without target and value |
| `Validation.DefaultOptionsSeenByValidate` | src/utils/validation.ts:20-33 | without caller options, `validate` gets `whitelist: true`, no groups, and errors without target and value |
| `Validation.TransformToClass` | src/utils/validation.ts:22-42 | an error thrown by `plainToClass` or `validate` is rethrown unchanged. A non-empty error list becomes a `TransformError` with message `TransformError: <class name>` that carries that list. The call succeeds exactly when both calls succeed and the list is empty, and it then returns the instance as `validate` left it (its undeclared properties stripped in place under `whitelist`) |
| `Validation.TransformToClassUnsafe` | src/utils/validation.ts:44-50 | for any value, an object or an array, succeeds exactly when `plainToClass` succeeds and `validate` finds no error, and returns the instance as `validate` left it; an error either library throws passes through unchanged; a non-empty error list becomes a `TransformError` naming the class and carrying that list |
| `Validation.TransformToRequest` | src/utils/validation.ts:52-63 | transforms the trimmed object. It succeeds exactly when that transform does, with the same value. Every failure becomes an `HttpErrorResponse` with status 400 whose body is the inner error and whose message is that error's message |
| `Validation.RequestFailuresAre400` | src/utils/validation.ts:60-62 | every failure of `transformToRequest`, of any kind, is a status-400 `HttpErrorResponse` |
| `Validation.RequestSeesTrimmedInput` | src/utils/validation.ts:57-59 | for an object, trimming the request first does not change the outcome of `transformToRequest` |
| `Validation.RequestValidationFailureBody` | src/utils/validation.ts:57-62 | a validation failure yields a 400 whose message is `TransformError: <class name>` and whose body is the `TransformError` with the unrendered forest |
| `Errors.NewHttpErrorResponse` | src/utils/errors.ts:9-10 | `statusCode` and `body` are stored unchanged, and the error's message is `body.message` |
| `Errors.NewTransformError` | src/utils/errors.ts:16-17 | `message` and `validationErrors` are stored unchanged |
| `Errors.ChildrenErrors` | src/utils/errors.ts:22-33 | no contract of its own; characterised by `Errors.ChildrenErrorsIsFilteredPreOrder` |
| `Errors.ChildrenErrorsIsFilteredPreOrder` | src/utils/errors.ts:22-33 | the walk equals the pre-order list of all nodes, filtered to those whose constraints are present. Each kept node is copied unchanged except that its property becomes `propPath` followed by `.name` for every name from the root down to the node. Nodes without constraints are still descended into |
| `Errors.NestedPathExample` | src/utils/errors.ts:26-29 | with root path `""`, a field `b` nested in `a` is reported with property `.a.b` (leading dot) |
| `Errors.ChildrenErrorsAppend` | src/utils/errors.ts:24-31 | siblings are flattened one after the other, in input order |
| `Errors.ChildrenErrorsCount` | src/utils/errors.ts:24-31 | the number of entries equals the number of forest nodes whose constraints are present, whatever the path |
| `Errors.EmittedHaveConstraints` | src/utils/errors.ts:25-26 | every emitted entry has its constraints present, so the `isNil` branch of the renderer is never taken |
| `Errors.Messages` | src/utils/errors.ts:43 | `Object.values` of a constraints object: its messages, one per constraint, in order |
| `Errors.Fragment` | src/utils/errors.ts:39-45 | no contract of its own; characterised by `Errors.ReportIgnoresPaths` and `Errors.FragmentsAvoid` |
| `Errors.Fragments` | src/utils/errors.ts:38-45 | one fragment per entry, in order |
| `Errors.ParseValidationErrors` | src/utils/errors.ts:35-47 | an empty forest renders as `""` |
| `Errors.ReportIgnoresPaths` | src/utils/errors.ts:35-47 | the report is the `";"`-join of one fragment per node with constraints, in pre-order. Each fragment is that node's messages joined by `", "`. No path enters it |
| `Errors.RenamingKeepsReport` | src/utils/errors.ts:38-46 | two forests that differ only in property names render the same report |
| `Errors.FragmentCount` | src/utils/errors.ts:38-46 | there is one fragment per node whose constraints are present |
| `Errors.ReportSplitsIntoFragments` | src/utils/errors.ts:38-46 | if no message contains `;` and at least one entry is emitted, splitting the report on `;` gives back the fragments in pre-order |

## Left out

- Registration of the rules: `registerDecorator`, `MetadataStorage`, `ValidationMetadata` and the rule name and options are side effects on class-validator's global registry. The model keeps only the condition and `validate` logic they register.
- class-validator's own rule evaluation, including `whitelist`, `groups` and the options kept in `otherOptions`, is not modelled. `Validation.ValidatorsRun` states only the documented meaning of a false condition. `validate` is a parameter.
- class-transformer's `plainToClass` and date-fns' `parse`/`isValid` are parameters. No calendar logic is modelled, and the reference date `new Date()` is folded into the parser predicate.
- Thrown values are error objects with a string `message`. A thrown `undefined` or `null` is not modelled: for it, `body.message` in the `HttpErrorResponse` constructor would itself throw a `TypeError` from inside the catch of `transformToRequest`, which then escapes instead of becoming a 400.
- Logging (`logger.error`), `Object.setPrototypeOf`, and the `async`/`Promise` plumbing are left out. They change no value the model tracks.
- Property enumeration order: the model uses the entries in the order given. JavaScript lists integer-like keys first, and the model does not reproduce that. The same holds for the constraint messages passed to `Object.values`.
- JsValue.Get: property reads do not consult the prototype chain. `obj[propertyName]` for an inherited name such as `constructor`, `toString` or `__proto__` reads `undefined` in the model, where JavaScript reads the inherited value.
- Validation.ConditionsSkipExactly: for the same reason, a field named after an inherited property (`constructor`, `toString`, ...) that the instance lacks counts as `undefined`, so `IsUndefinable` is stated to skip it, where JavaScript would see the inherited value and run the validators.
- JsValue.Put: the prototype that a write of an object or `null` to `__proto__` installs is not recorded. Only the own entries are modelled, and reads through the new prototype are not.
- Validation.TrimStringsEntrywise: an object value under `__proto__` becomes the result's prototype in JavaScript. The lemma states only that the own entries drop that key.
- An object is a list of entries. The lemmas about `trimStrings` assume its keys are distinct, which every JavaScript object guarantees. A list with a repeated key is not a JavaScript object, and the model makes no claim about it.
- Numbers are kept as reals with no IEEE-754 behaviour. They are only passed through.
- JsString: a Dafny `char` is a Unicode scalar value, so a string holding a lone surrogate (which `JSON.parse` accepts from `"\ud800"`) cannot be represented. `JsString.Utf16Length` and `JsString.Trim` are stated for well-formed strings only.
- `JsString.Utf16Length` only bounds the UTF-16 length by the code-point count and twice it. Its definition (two units for a code point above U+FFFF) is what the date rule uses.
- Database access, configuration, routing and the ambient type declarations are outside this model.

=== FILE: errors.dfy ===
/** Error objects and the flattening of class-validator's error forest into the
    one-line report (src/utils/errors.ts). */
module Errors {
  import opened Wrappers
  import opened JsString

  /** One node of the forest class-validator returns: the local property name,
      the violated constraints as (constraint name, message) pairs in
      enumeration order (absent when this property itself broke no rule), and
      one child per nested property that has violations. */
  datatype ValidationError = ValidationError(
    property: string,
    constraints: Option<seq<(string, string)>>,
    children: seq<ValidationError>)

  /** The values thrown or carried as error bodies: a `TransformError`, an
      `HttpErrorResponse` whose body is any error-like object, and whatever a
      foreign library throws. */
  datatype ErrorObject =
    | TransformError(message: string, validationErrors: seq<ValidationError>)
    | HttpErrorResponse(message: string, statusCode: int, body: ErrorObject)
    | ForeignError(message: string)

  /** `new HttpErrorResponse(statusCode, body)`: both fields stored as given, and
      the `Error` message taken from the body. */
  function NewHttpErrorResponse(statusCode: int, body: ErrorObject): (e: ErrorObject)
    ensures e.HttpErrorResponse?
    ensures e.statusCode == statusCode && e.body == body
    ensures e.message == body.message
  {
    HttpErrorResponse(body.message, statusCode, body)
  }

  /** `new TransformError(message, validationErrors)`: both fields stored as given. */
  function NewTransformError(message: string, validationErrors: seq<ValidationError>): (e: ErrorObject)
    ensures e.TransformError?
    ensures e.message == message && e.validationErrors == validationErrors
  {
    TransformError(message, validationErrors)
  }

  /** `getChildrenErrors`: walks the forest in pre-order and emits a copy of every
      node whose constraints are present, its property replaced by the dotted
      path `propPath.property`; children are visited with that path whether or
      not the node itself was emitted. */
  function ChildrenErrors(parentErrors: seq<ValidationError>, propPath: string): (acc: seq<ValidationError>)
    decreases parentErrors
  {
    if |parentErrors| == 0 then []
    else
      var error := parentErrors[0];
      var path := propPath + "." + error.property;
      (if error.constraints.Some? then [error.(property := path)] else [])
      + (if |error.children| > 0 then ChildrenErrors(error.children, path) else [])
      + ChildrenErrors(parentErrors[1..], propPath)
  }

  /** The constraint messages of a node, in enumeration order (`Object.values`). */
  function Messages(constraints: seq<(string, string)>): (ms: seq<string>)
    ensures |ms| == |constraints|
    ensures forall i :: 0 <= i < |ms| ==> ms[i] == constraints[i].1
  {
    seq(|constraints|, i requires 0 <= i < |constraints| => constraints[i].1)
  }

  /** The text one emitted entry contributes: its messages joined by `", "`,
      or `""` when its constraints are absent. */
  function Fragment(error: ValidationError): (fragment: string) {
    match error.constraints
    case None => ""
    case Some(cs) => Join(Messages(cs), ", ")
  }

  /** `Array.prototype.map(Fragment)`. */
  function Fragments(errors: seq<ValidationError>): (fs: seq<string>)
    ensures |fs| == |errors|
    ensures forall i :: 0 <= i < |fs| ==> fs[i] == Fragment(errors[i])
  {
    seq(|errors|, i requires 0 <= i < |errors| => Fragment(errors[i]))
  }

  /** `parseValidationErrors`: the fragments of the flattened forest joined by `";"`. */
  function ParseValidationErrors(validationErrors: seq<ValidationError>): (report: string)
    ensures |validationErrors| == 0 ==> report == ""
  {
    Join(Fragments(ChildrenErrors(validationErrors, "")), ";")
  }

  // ---------------------------------------------------------------------------
  // Reference definitions of the walk, independent of how getChildrenErrors
  // threads its path, and the lemmas connecting the two.

  /** A node of the forest together with the property names on the way from a
      root to it, the node's own name last. */
  datatype Located = Located(trail: seq<string>, node: ValidationError)

  /** Every node of the forest in pre-order: a node before its descendants,
      siblings in input order. */
  function PreOrder(forest: seq<ValidationError>, trail: seq<string>): (located: seq<Located>)
    decreases forest
  {
    if |forest| == 0 then []
    else
      var n := forest[0];
      var t := trail + [n.property];
      [Located(t, n)] + PreOrder(n.children, t) + PreOrder(forest[1..], trail)
  }

  /** The dotted path of a chain of property names: `"." + name` for each one. */
  function DottedPath(names: seq<string>): (path: string)
    decreases |names|
  {
    if |names| == 0 then ""
    else DottedPath(names[..|names| - 1]) + "." + names[|names| - 1]
  }

  /** The entries a list of located nodes yields: one per node with constraints
      present, equal to that node except that its property is the dotted path
      below `root`. */
  function Emitted(located: seq<Located>, root: string): (entries: seq<ValidationError>)
    decreases |located|
  {
    if |located| == 0 then []
    else
      var l := located[0];
      (if l.node.constraints.Some? then [l.node.(property := root + DottedPath(l.trail))] else [])
      + Emitted(located[1..], root)
  }

  /** The number of nodes of the forest whose constraints are present. */
  function ConstrainedCount(forest: seq<ValidationError>): (count: nat)
    decreases forest
  {
    if |forest| == 0 then 0
    else
      (if forest[0].constraints.Some? then 1 else 0)
      + ConstrainedCount(forest[0].children)
      + ConstrainedCount(forest[1..])
  }

  /** The rendered fragments of the forest, computed without any paths: for each
      node with constraints, in pre-order, its messages joined by `", "`. */
  function ConstraintFragments(forest: seq<ValidationError>): (fragments: seq<string>)
    decreases forest
  {
    if |forest| == 0 then []
    else
      var n := forest[0];
      (match n.constraints case None => [] case Some(cs) => [Join(Messages(cs), ", ")])
      + ConstraintFragments(n.children)
      + ConstraintFragments(forest[1..])
  }

  /** The two forests differ at most in their property names. */
  predicate SameShape(f1: seq<ValidationError>, f2: seq<ValidationError>)
    decreases f1
  {
    && |f1| == |f2|
    && (|f1| > 0 ==>
          && f1[0].constraints == f2[0].constraints
          && SameShape(f1[0].children, f2[0].children)
          && SameShape(f1[1..], f2[1..]))
  }

  /** No constraint message anywhere in the forest contains `c`. */
  predicate MessagesAvoid(forest: seq<ValidationError>, c: char)
    decreases forest
  {
    |forest| > 0 ==>
      && (forest[0].constraints.Some? ==>
            forall i :: 0 <= i < |forest[0].constraints.value| ==> c !in forest[0].constraints.value[i].1)
      && MessagesAvoid(forest[0].children, c)
      && MessagesAvoid(forest[1..], c)
  }

  /** Filtering and relabelling located nodes distributes over concatenation. */
  lemma {:induction false} EmittedAppend(a: seq<Located>, b: seq<Located>, root: string)
    ensures Emitted(a + b, root) == Emitted(a, root) + Emitted(b, root)
    decreases |a|
  {
    if |a| == 0 {
      assert a + b == b;
    } else {
      assert (a + b)[0] == a[0];
      assert (a + b)[1..] == a[1..] + b;
      EmittedAppend(a[1..], b, root);
    }
  }

  /** getChildrenErrors is the pre-order walk filtered to the nodes whose
      constraints are present, each entry the source node with its property
      replaced by the dotted path of names from the root: it emits one entry
      for a node exactly when its constraints are present, still descends into
      the children of nodes without constraints, and visits every node before
      its descendants and siblings in input order. */
  lemma {:induction false} ChildrenErrorsIsFilteredPreOrder(
    forest: seq<ValidationError>, root: string, trail: seq<string>)
    ensures ChildrenErrors(forest, root + DottedPath(trail)) == Emitted(PreOrder(forest, trail), root)
    decreases forest
  {
    if |forest| > 0 {
      var n := forest[0];
      var t := trail + [n.property];
      assert t[..|t| - 1] == trail;
      assert root + DottedPath(t) == root + DottedPath(trail) + "." + n.property;
      ChildrenErrorsIsFilteredPreOrder(n.children, root, t);
      ChildrenErrorsIsFilteredPreOrder(forest[1..], root, trail);
      EmittedAppend([Located(t, n)], PreOrder(n.children, t), root);
      EmittedAppend([Located(t, n)] + PreOrder(n.children, t), PreOrder(forest[1..], trail), root);
    }
  }

  /** From the root path `""`, every path starts with a dot: a top-level field
      `a` is reported as `.a`, a field `b` nested in it as `.a.b`. */
  lemma NestedPathExample(a: string, b: string, cs: seq<(string, string)>)
    ensures ChildrenErrors([ValidationError(a, None, [ValidationError(b, Some(cs), [])])], "")
         == [ValidationError("." + a + "." + b, Some(cs), [])]
  {
    var leaf := ValidationError(b, Some(cs), []);
    assert ChildrenErrors([leaf], "." + a) == [leaf.(property := "." + a + "." + b)] by {
      assert [leaf][1..] == [];
    }
    assert [ValidationError(a, None, [leaf])][1..] == [];
    assert "" + "." + a == "." + a;
  }

  /** Sibling lists are flattened one after the other, in input order. */
  lemma {:induction false} ChildrenErrorsAppend(f1: seq<ValidationError>, f2: seq<ValidationError>, propPath: string)
    ensures ChildrenErrors(f1 + f2, propPath) == ChildrenErrors(f1, propPath) + ChildrenErrors(f2, propPath)
    decreases f1
  {
    if |f1| == 0 {
      assert f1 + f2 == f2;
    } else {
      assert (f1 + f2)[0] == f1[0];
      assert (f1 + f2)[1..] == f1[1..] + f2;
      ChildrenErrorsAppend(f1[1..], f2, propPath);
      var n := f1[0];
      var path := propPath + "." + n.property;
      var head := (if n.constraints.Some? then [n.(property := path)] else [])
        + (if |n.children| > 0 then ChildrenErrors(n.children, path) else []);
      assert ChildrenErrors(f1 + f2, propPath) == head + ChildrenErrors(f1[1..] + f2, propPath);
      assert ChildrenErrors(f1, propPath) == head + ChildrenErrors(f1[1..], propPath);
    }
  }

  /** One entry per node whose constraints are present, whatever the path. */
  lemma {:induction false} ChildrenErrorsCount(forest: seq<ValidationError>, propPath: string)
    ensures |ChildrenErrors(forest, propPath)| == ConstrainedCount(forest)
    decreases forest
  {
    if |forest| > 0 {
      var n := forest[0];
      ChildrenErrorsCount(n.children, propPath + "." + n.property);
      ChildrenErrorsCount(forest[1..], propPath);
    }
  }

  /** Every emitted entry has its constraints present, so the `isNil` branch of
      the rendering is never taken. */
  lemma {:induction false} EmittedHaveConstraints(forest: seq<ValidationError>, propPath: string)
    ensures forall i :: 0 <= i < |ChildrenErrors(forest, propPath)| ==>
              ChildrenErrors(forest, propPath)[i].constraints.Some?
    decreases forest
  {
    if |forest| > 0 {
      var n := forest[0];
      EmittedHaveConstraints(n.children, propPath + "." + n.property);
      EmittedHaveConstraints(forest[1..], propPath);
    }
  }

  /** Rendering fragments distributes over concatenation of entry lists. */
  lemma FragmentsAppend(a: seq<ValidationError>, b: seq<ValidationError>)
    ensures Fragments(a + b) == Fragments(a) + Fragments(b)
  {
  }

  /** The rendered fragments of the flattened forest do not depend on the
      paths: they are the constraint messages in pre-order. */
  lemma {:induction false} FragmentsIgnorePaths(forest: seq<ValidationError>, propPath: string)
    ensures Fragments(ChildrenErrors(forest, propPath)) == ConstraintFragments(forest)
    decreases forest
  {
    if |forest| > 0 {
      var n := forest[0];
      var path := propPath + "." + n.property;
      var own := if n.constraints.Some? then [n.(property := path)] else [];
      var below := if |n.children| > 0 then ChildrenErrors(n.children, path) else [];
      FragmentsIgnorePaths(n.children, path);
      FragmentsIgnorePaths(forest[1..], propPath);
      FragmentsAppend(own, below);
      FragmentsAppend(own + below, ChildrenErrors(forest[1..], propPath));
    }
  }

  /** The report is the `";"`-join of the constraint messages in pre-order; the
      dotted paths getChildrenErrors computes never reach it. */
  lemma ReportIgnoresPaths(forest: seq<ValidationError>)
    ensures ParseValidationErrors(forest) == Join(ConstraintFragments(forest), ";")
  {
    FragmentsIgnorePaths(forest, "");
  }

  /** Forests of the same shape and messages yield the same fragments, whatever their property names. */
  lemma {:induction false} SameShapeSameFragments(f1: seq<ValidationError>, f2: seq<ValidationError>)
    requires SameShape(f1, f2)
    ensures ConstraintFragments(f1) == ConstraintFragments(f2)
    decreases f1
  {
    if |f1| > 0 {
      SameShapeSameFragments(f1[0].children, f2[0].children);
      SameShapeSameFragments(f1[1..], f2[1..]);
    }
  }

  /** Renaming properties anywhere in the forest leaves the report unchanged. */
  lemma RenamingKeepsReport(f1: seq<ValidationError>, f2: seq<ValidationError>)
    requires SameShape(f1, f2)
    ensures ParseValidationErrors(f1) == ParseValidationErrors(f2)
  {
    ReportIgnoresPaths(f1);
    ReportIgnoresPaths(f2);
    SameShapeSameFragments(f1, f2);
  }

  /** One fragment per node whose constraints are present. */
  lemma FragmentCount(forest: seq<ValidationError>)
    ensures |ConstraintFragments(forest)| == ConstrainedCount(forest)
  {
    FragmentsIgnorePaths(forest, "");
    ChildrenErrorsCount(forest, "");
  }

  /** A character no message contains, other than the `", "` separator's, occurs in no fragment. */
  lemma {:induction false} FragmentsAvoid(forest: seq<ValidationError>, c: char)
    requires MessagesAvoid(forest, c)
    requires c != ',' && c != ' '
    ensures forall i :: 0 <= i < |ConstraintFragments(forest)| ==> c !in ConstraintFragments(forest)[i]
    decreases forest
  {
    if |forest| > 0 {
      var n := forest[0];
      FragmentsAvoid(n.children, c);
      FragmentsAvoid(forest[1..], c);
      if n.constraints.Some? {
        JoinAvoids(Messages(n.constraints.value), ", ", c);
      }
    }
  }

  /** When no message contains `";"` and at least one entry is emitted, splitting
      the report on `";"` recovers one fragment per emitted entry, in pre-order. */
  lemma ReportSplitsIntoFragments(forest: seq<ValidationError>)
    requires MessagesAvoid(forest, ';')
    requires ConstrainedCount(forest) > 0
    ensures Split(ParseValidationErrors(forest), ';') == ConstraintFragments(forest)
  {
    ReportIgnoresPaths(forest);
    FragmentCount(forest);
    FragmentsAvoid(forest, ';');
    SplitJoin(ConstraintFragments(forest), ';');
  }
}

=== FILE: js_string.dfy ===
/** The JavaScript string built-ins the validation code relies on, on `seq<char>`:
    `String.prototype.trim`, `String.prototype.split` with a one-character
    separator, `Array.prototype.join` and the UTF-16 `length` of a string. */
module JsString {

  /** The characters `trim` removes: the ECMAScript WhiteSpace and LineTerminator
      code points (tab, line feed, vertical tab, form feed, carriage return, space,
      no-break space, the Unicode space separators, the line and paragraph
      separators and the byte order mark). */
  predicate IsWhitespace(c: char) {
    var n := c as int;
    || n == 0x09 || n == 0x0A || n == 0x0B || n == 0x0C || n == 0x0D
    || n == 0x20 || n == 0xA0 || n == 0x1680
    || (0x2000 <= n <= 0x200A)
    || n == 0x2028 || n == 0x2029 || n == 0x202F || n == 0x205F
    || n == 0x3000 || n == 0xFEFF
  }

  /** Every character of `s` at a position in `[lo, hi)` is whitespace. */
  predicate BlankBetween(s: string, lo: int, hi: int) {
    forall k :: lo <= k < hi && 0 <= k < |s| ==> IsWhitespace(s[k])
  }

  /** Neither end of `s` is whitespace (vacuously true of the empty string). */
  predicate Untrimmable(s: string) {
    s == [] || (!IsWhitespace(s[0]) && !IsWhitespace(s[|s| - 1]))
  }

  /** `s[i..j]` is a window of `s` outside which every character is whitespace
      and whose two ends are not whitespace. */
  predicate TrimWindow(s: string, i: int, j: int) {
    && 0 <= i <= j <= |s|
    && BlankBetween(s, 0, i)
    && BlankBetween(s, j, |s|)
    && Untrimmable(s[i..j])
  }

  /** `r` is `s` with a whitespace prefix and a whitespace suffix removed, and
      nothing more can be removed from either end: the reference definition of
      what `trim` returns, independent of how it is computed. */
  ghost predicate IsTrimOf(s: string, r: string) {
    exists i, j :: TrimWindow(s, i, j) && r == s[i..j]
  }

  /** Leading whitespace removed. */
  function TrimStart(s: string): (r: string)
    ensures |r| <= |s| && r == s[|s| - |r|..]
    ensures BlankBetween(s, 0, |s| - |r|)
    ensures r == [] || !IsWhitespace(r[0])
    decreases |s|
  {
    if |s| > 0 && IsWhitespace(s[0]) then TrimStart(s[1..]) else s
  }

  /** Trailing whitespace removed. */
  function TrimEnd(s: string): (r: string)
    ensures |r| <= |s| && r == s[..|r|]
    ensures BlankBetween(s, |r|, |s|)
    ensures r == [] || !IsWhitespace(r[|r| - 1])
    decreases |s|
  {
    if |s| > 0 && IsWhitespace(s[|s| - 1]) then TrimEnd(s[..|s| - 1]) else s
  }

  /** `String.prototype.trim`: whitespace removed from both ends. */
  function Trim(s: string): (r: string)
    ensures IsTrimOf(s, r)
  {
    var t := TrimStart(s);
    var r := TrimEnd(t);
    var i := |s| - |t|;
    assert s[i..i + |r|] == r;
    assert TrimWindow(s, i, i + |r|);
    r
  }

  /** The trimmed form of a string is unique: whatever satisfies the reference
      definition is what `Trim` returns. */
  lemma TrimUnique(s: string, r1: string, r2: string)
    requires IsTrimOf(s, r1) && IsTrimOf(s, r2)
    ensures r1 == r2
  {
    var i1, j1 :| TrimWindow(s, i1, j1) && r1 == s[i1..j1];
    var i2, j2 :| TrimWindow(s, i2, j2) && r2 == s[i2..j2];
    TrimWindowsAgree(s, i1, j1, i2, j2);
  }

  /** Two trim windows of one string hold the same text. */
  lemma TrimWindowsAgree(s: string, i1: int, j1: int, i2: int, j2: int)
    requires TrimWindow(s, i1, j1) && TrimWindow(s, i2, j2)
    ensures s[i1..j1] == s[i2..j2]
  {
    var r1, r2 := s[i1..j1], s[i2..j2];
    if r1 == [] || r2 == [] {
      EmptyTrimMeansBlank(s, i1, j1);
      EmptyTrimMeansBlank(s, i2, j2);
    } else {
      assert s[i1] == r1[0] && s[j1 - 1] == r1[|r1| - 1];
      assert s[i2] == r2[0] && s[j2 - 1] == r2[|r2| - 1];
      NonBlankBounds(s, i1, j1, i2);
      NonBlankBounds(s, i2, j2, i1);
      NonBlankBounds(s, i1, j1, j2 - 1);
      NonBlankBounds(s, i2, j2, j1 - 1);
    }
  }

  /** A non-whitespace position lies inside any window outside which `s` is blank. */
  lemma NonBlankBounds(s: string, i: int, j: int, m: int)
    requires BlankBetween(s, 0, i) && BlankBetween(s, j, |s|)
    requires 0 <= m < |s| && !IsWhitespace(s[m])
    ensures i <= m < j
  {
  }

  /** A trimmed form is empty exactly when the whole string is whitespace. */
  lemma EmptyTrimMeansBlank(s: string, i: int, j: int)
    requires TrimWindow(s, i, j)
    ensures s[i..j] == [] <==> BlankBetween(s, 0, |s|)
  {
    if i < j {
      assert s[i] == s[i..j][0];
    }
  }

  /** `trim` is idempotent. */
  lemma {:induction false} TrimIdempotent(s: string)
    ensures Trim(Trim(s)) == Trim(s)
  {
    var r := Trim(s);
    assert IsTrimOf(r, r) by {
      assert r == r[0..|r|];
      assert TrimWindow(r, 0, |r|);
    }
    TrimUnique(r, Trim(r), r);
  }

  /** `String.prototype.split(sep)` for a one-character separator: the pieces
      between separators, in order; the empty string splits into `[""]`. */
  function Split(s: string, sep: char): (parts: seq<string>)
    ensures |parts| >= 1
    ensures forall i :: 0 <= i < |parts| ==> sep !in parts[i]
    decreases |s|
  {
    if |s| == 0 then [""]
    else
      var rest := Split(s[1..], sep);
      if s[0] == sep then [""] + rest
      else [[s[0]] + rest[0]] + rest[1..]
  }

  /** The segment after the last separator: the last element of `split`. */
  function LastSegment(s: string, sep: char): (last: string) {
    var parts := Split(s, sep);
    parts[|parts| - 1]
  }

  /** `String.prototype.lastIndexOf` for one character: -1 when absent. */
  function LastIndexOf(s: string, c: char): (k: int)
    ensures -1 <= k < |s|
    ensures k >= 0 ==> s[k] == c
    ensures forall m :: k < m < |s| ==> s[m] != c
    decreases |s|
  {
    if |s| == 0 then -1
    else if s[|s| - 1] == c then |s| - 1
    else LastIndexOf(s[..|s| - 1], c)
  }

  /** `Array.prototype.join(sep)`: the empty array joins to `""`. */
  function Join(parts: seq<string>, sep: string): (joined: string)
    decreases |parts|
  {
    if |parts| == 0 then ""
    else if |parts| == 1 then parts[0]
    else parts[0] + sep + Join(parts[1..], sep)
  }

  /** Joining the pieces of a split with the separator gives the string back. */
  lemma {:induction false} JoinSplit(s: string, sep: char)
    ensures Join(Split(s, sep), [sep]) == s
    decreases |s|
  {
    if |s| > 0 {
      var rest := Split(s[1..], sep);
      JoinSplit(s[1..], sep);
      if s[0] == sep {
        assert Join([""] + rest, [sep]) == "" + [sep] + Join(rest, [sep]);
      } else if |rest| > 1 {
        var parts := [[s[0]] + rest[0]] + rest[1..];
        assert parts[1..] == rest[1..];
        assert Join(rest, [sep]) == rest[0] + [sep] + Join(rest[1..], [sep]);
      }
    }
  }

  /** A string without the separator is its own single piece. */
  lemma {:induction false} SplitWithoutSep(s: string, sep: char)
    requires sep !in s
    ensures Split(s, sep) == [s]
    decreases |s|
  {
    if |s| > 0 {
      SplitWithoutSep(s[1..], sep);
      assert [s[0]] + s[1..] == s;
    }
  }

  /** A leading separator-free piece followed by the separator splits off first. */
  lemma {:induction false} SplitAfterPiece(a: string, sep: char, b: string)
    requires sep !in a
    ensures Split(a + [sep] + b, sep) == [a] + Split(b, sep)
    decreases |a|
  {
    var s := a + [sep] + b;
    if |a| == 0 {
      assert s[1..] == b;
    } else {
      assert s[1..] == a[1..] + [sep] + b;
      SplitAfterPiece(a[1..], sep, b);
      assert [a[0]] + a[1..] == a;
    }
  }

  /** Splitting a join recovers the pieces, provided there is at least one piece
      and no piece contains the separator. */
  lemma {:induction false} SplitJoin(parts: seq<string>, sep: char)
    requires |parts| >= 1
    requires forall i :: 0 <= i < |parts| ==> sep !in parts[i]
    ensures Split(Join(parts, [sep]), sep) == parts
    decreases |parts|
  {
    if |parts| == 1 {
      SplitWithoutSep(parts[0], sep);
    } else {
      SplitJoin(parts[1..], sep);
      SplitAfterPiece(parts[0], sep, Join(parts[1..], [sep]));
    }
  }

  /** A join avoids a character that neither the pieces nor the separator contain. */
  lemma {:induction false} JoinAvoids(parts: seq<string>, sep: string, c: char)
    requires c !in sep
    requires forall i :: 0 <= i < |parts| ==> c !in parts[i]
    ensures c !in Join(parts, sep)
    decreases |parts|
  {
    if |parts| > 1 {
      JoinAvoids(parts[1..], sep, c);
    }
  }

  /** The last piece of a split is exactly what follows the last separator
      (all of `s` when it has none). */
  lemma {:induction false} LastSegmentAfterLastSep(s: string, sep: char)
    ensures LastSegment(s, sep) == s[LastIndexOf(s, sep) + 1..]
    decreases |s|
  {
    var k := LastIndexOf(s, sep);
    if k < 0 {
      SplitWithoutSep(s, sep);
    } else {
      assert s == s[..k] + [sep] + s[k + 1..];
      assert sep !in s[k + 1..];
      var before := Split(s[..k], sep);
      SplitPieceAfterPrefix(s[..k], sep, s[k + 1..]);
      SplitWithoutSep(s[k + 1..], sep);
    }
  }

  /** Splitting `a + sep + b` appends the pieces of `b` after those of `a`,
      the last piece of `a` ending where the separator stands. */
  lemma {:induction false} SplitPieceAfterPrefix(a: string, sep: char, b: string)
    ensures Split(a + [sep] + b, sep) == Split(a, sep) + Split(b, sep)
    decreases |a|
  {
    var s := a + [sep] + b;
    if |a| == 0 {
      assert s[1..] == b;
    } else {
      assert s[1..] == a[1..] + [sep] + b;
      SplitPieceAfterPrefix(a[1..], sep, b);
    }
  }

  /** The number of UTF-16 code units JavaScript's `length` reports: code points
      above U+FFFF take a surrogate pair. */
  function Utf16Length(s: string): (n: nat)
    ensures |s| <= n <= 2 * |s|
    decreases |s|
  {
    if |s| == 0 then 0
    else (if s[0] as int > 0xFFFF then 2 else 1) + Utf16Length(s[1..])
  }
}

=== FILE: js_value.dfy ===
/** JavaScript values as they reach the validation code: the JSON-decoded
    request payload and the objects built from it. */
module JsValue {

  /** A JavaScript value. Numbers are kept as reals (only their identity
      matters here); an object is the list of its own enumerable properties in
      enumeration order, as `Object.entries` returns them. */
  datatype Value =
    | Undefined
    | Null
    | Bool(b: bool)
    | Num(n: real)
    | Str(s: string)
    | Arr(items: seq<Value>)
    | Obj(entries: Entries)

  /** An object's own properties: key/value pairs in enumeration order. */
  type Entries = seq<(string, Value)>

  /** The keys of an object, in order. */
  function Keys(obj: Entries): (keys: seq<string>)
    ensures |keys| == |obj|
    ensures forall i :: 0 <= i < |obj| ==> keys[i] == obj[i].0
  {
    seq(|obj|, i requires 0 <= i < |obj| => obj[i].0)
  }

  /** No key occurs twice: what every JavaScript object satisfies. */
  predicate DistinctKeys(obj: Entries) {
    forall i, j :: 0 <= i < j < |obj| ==> obj[i].0 != obj[j].0
  }

  /** Property read `obj[key]`: `undefined` when the object has no such property. */
  function Get(obj: Entries, key: string): (v: Value)
    ensures key !in Keys(obj) ==> v == Undefined
    decreases |obj|
  {
    if |obj| == 0 then Undefined
    else if obj[0].0 == key then obj[0].1
    else
      assert Keys(obj) == [obj[0].0] + Keys(obj[1..]);
      Get(obj[1..], key)
  }

  /** On an object, reading a key it has gives the value stored under that key. */
  lemma {:induction false} GetFindsEntry(obj: Entries, i: int)
    requires DistinctKeys(obj)
    requires 0 <= i < |obj|
    ensures Get(obj, obj[i].0) == obj[i].1
    decreases |obj|
  {
    if i > 0 {
      assert obj[0].0 != obj[i].0;
      assert obj[1..][i - 1] == obj[i];
      GetFindsEntry(obj[1..], i - 1);
    }
  }

  /** The key whose assignment on an object created by `{}` runs the setter
      `Object.prototype.__proto__` inherits instead of creating an own property. */
  const ProtoKey: string := "__proto__"

  /** Property write `obj[key] = v` on an object created by `{}`: an existing
      property keeps its place and takes the new value; a new property is added
      at the end; a write to `__proto__` adds no own property (the setter
      changes only the prototype, which the entries do not record). */
  function Put(obj: Entries, key: string, v: Value): (r: Entries)
    ensures key == ProtoKey ==> r == obj
    ensures key != ProtoKey && key !in Keys(obj) ==> r == obj + [(key, v)]
    decreases |obj|
  {
    if key == ProtoKey then obj
    else if |obj| == 0 then [(key, v)]
    else if obj[0].0 == key then [(key, v)] + obj[1..]
    else
      assert Keys(obj) == [obj[0].0] + Keys(obj[1..]);
      [obj[0]] + Put(obj[1..], key, v)
  }

  /** After `obj[key] = v`, `key` reads `v` unless it is `__proto__`, and every
      other key's own value is unchanged. */
  lemma {:induction false} PutThenGet(obj: Entries, key: string, v: Value, other: string)
    requires other != key
    ensures key != ProtoKey ==> Get(Put(obj, key, v), key) == v
    ensures Get(Put(obj, key, v), other) == Get(obj, other)
    decreases |obj|
  {
    if key != ProtoKey && |obj| > 0 && obj[0].0 != key {
      PutThenGet(obj[1..], key, v, other);
    }
  }

  /** The own entries that survive being copied one by one onto a `{}`:
      every entry but one keyed `__proto__`. */
  function WithoutProtoKey(obj: Entries): (kept: Entries)
    ensures |kept| <= |obj|
    ensures ProtoKey !in Keys(kept)
    decreases |obj|
  {
    if |obj| == 0 then []
    else
      var front := WithoutProtoKey(obj[..|obj| - 1]);
      var last := obj[|obj| - 1];
      assert Keys(front + [last]) == Keys(front) + [last.0];
      if last.0 == ProtoKey then front else front + [last]
  }

  /** `WithoutProtoKey` keeps exactly the entries not keyed `__proto__`,
      in their order. */
  lemma {:induction false} WithoutProtoKeyKeeps(obj: Entries, e: (string, Value))
    ensures e in WithoutProtoKey(obj) <==> e in obj && e.0 != ProtoKey
    decreases |obj|
  {
    if |obj| > 0 {
      var front := obj[..|obj| - 1];
      WithoutProtoKeyKeeps(front, e);
      assert obj == front + [obj[|obj| - 1]];
    }
  }

  /** Every key of `WithoutProtoKey(obj)` is a key of `obj`. */
  lemma WithoutProtoKeyKeys(obj: Entries, key: string)
    ensures key in Keys(WithoutProtoKey(obj)) ==> key in Keys(obj)
  {
    var kept := WithoutProtoKey(obj);
    if key in Keys(kept) {
      var j :| 0 <= j < |kept| && kept[j].0 == key;
      WithoutProtoKeyKeeps(obj, kept[j]);
      var m :| 0 <= m < |obj| && obj[m] == kept[j];
      assert Keys(obj)[m] == key;
    }
  }

  /** An object without a `__proto__` entry loses nothing. */
  lemma {:induction false} WithoutProtoKeyNoop(obj: Entries)
    requires ProtoKey !in Keys(obj)
    ensures WithoutProtoKey(obj) == obj
    decreases |obj|
  {
    if |obj| > 0 {
      var front := obj[..|obj| - 1];
      assert Keys(obj) == Keys(front) + [obj[|obj| - 1].0];
      WithoutProtoKeyNoop(front);
      assert obj == front + [obj[|obj| - 1]];
    }
  }
}

=== FILE: validation.dfy ===
/** Request pre-processing, the conditional and date-format rules, and the
    result/exception flow of the transform entry points (src/utils/validation.ts). */
module Validation {
  import opened Wrappers
  import opened JsString
  import opened JsValue
  import opened Errors

  // ---------------------------------------------------------------------------
  // trimStrings

  /** One property of `trimStrings`: a string is trimmed, anything else
      (including a nested object or array) is kept as it is. */
  function TrimValue(value: Value): (r: Value)
    ensures value.Str? ==> r.Str? && IsTrimOf(value.s, r.s)
    ensures !value.Str? ==> r == value
  {
    if value.Str? then Str(Trim(value.s)) else value
  }

  /** A value `trimStrings` leaves as it is. */
  predicate Settled(value: Value) {
    TrimValue(value) == value
  }

  /** `trimStrings`: a new object built by assigning, for each entry of the
      input in order, the trimmed value to its key. */
  function TrimStrings(obj: Entries): (result: Entries)
    decreases |obj|
  {
    if |obj| == 0 then []
    else
      var (key, value) := obj[|obj| - 1];
      Put(TrimStrings(obj[..|obj| - 1]), key, TrimValue(value))
  }

  /** On an object (whose keys are distinct), `trimStrings` keeps exactly the
      entries not keyed `__proto__`, in their order, trims every string value
      and passes every other value through unchanged; the result is again an
      object without a `__proto__` entry. */
  lemma {:induction false} TrimStringsEntrywise(obj: Entries)
    requires DistinctKeys(obj)
    ensures |TrimStrings(obj)| == |WithoutProtoKey(obj)|
    ensures Keys(TrimStrings(obj)) == Keys(WithoutProtoKey(obj))
    ensures forall i :: 0 <= i < |WithoutProtoKey(obj)| ==>
              TrimStrings(obj)[i].1 == TrimValue(WithoutProtoKey(obj)[i].1)
    ensures DistinctKeys(TrimStrings(obj))
    decreases |obj|
  {
    if |obj| > 0 {
      var (key, value) := obj[|obj| - 1];
      var front := obj[..|obj| - 1];
      assert DistinctKeys(front);
      TrimStringsEntrywise(front);
      var done := TrimStrings(front);
      var kept := WithoutProtoKey(front);
      if key != ProtoKey {
        assert key !in Keys(done) by {
          KeysAppend(front, key, value);
          WithoutProtoKeyKeys(front, key);
        }
        assert TrimStrings(obj) == done + [(key, TrimValue(value))];
        assert WithoutProtoKey(obj) == kept + [(key, value)];
        KeysAppend(done, key, TrimValue(value));
        KeysAppend(kept, key, value);
        AppendedValues(kept + [(key, value)], done);
      }
    }
  }

  /** Appending one trimmed entry extends the entrywise trimmed-values fact by one index. */
  lemma AppendedValues(kept: Entries, done: Entries)
    requires |kept| > 0 && |done| == |kept| - 1
    requires forall i :: 0 <= i < |done| ==> done[i].1 == TrimValue(kept[i].1)
    ensures var r := done + [(kept[|kept| - 1].0, TrimValue(kept[|kept| - 1].1))];
            forall i :: 0 <= i < |kept| ==> r[i].1 == TrimValue(kept[i].1)
  {
  }

  /** Appending an entry appends its key. */
  lemma KeysAppend(obj: Entries, key: string, value: Value)
    ensures Keys(obj + [(key, value)]) == Keys(obj) + [key]
  {
  }

  /** A trimmed value is settled. */
  lemma TrimValueSettles(value: Value)
    ensures Settled(TrimValue(value))
  {
    if value.Str? {
      TrimIdempotent(value.s);
    }
  }

  /** On an object without a `__proto__` entry whose values are already
      settled, `trimStrings` changes nothing. */
  lemma {:induction false} TrimStringsKeepsSettled(obj: Entries)
    requires DistinctKeys(obj) && ProtoKey !in Keys(obj)
    requires forall i :: 0 <= i < |obj| ==> Settled(obj[i].1)
    ensures TrimStrings(obj) == obj
  {
    var r := TrimStrings(obj);
    TrimStringsEntrywise(obj);
    WithoutProtoKeyNoop(obj);
    forall i | 0 <= i < |obj|
      ensures r[i] == obj[i]
    {
      assert Keys(r)[i] == Keys(obj)[i];
    }
  }

  /** `trimStrings` is idempotent. */
  lemma TrimStringsIdempotent(obj: Entries)
    requires DistinctKeys(obj)
    ensures TrimStrings(TrimStrings(obj)) == TrimStrings(obj)
  {
    var r := TrimStrings(obj);
    TrimStringsEntrywise(obj);
    var kept := WithoutProtoKey(obj);
    forall i | 0 <= i < |r|
      ensures Settled(r[i].1)
    {
      TrimValueSettles(kept[i].1);
    }
    TrimStringsKeepsSettled(r);
  }

  /** One level only: a nested object's strings are not trimmed, and the entry
      is copied as it is; under the key `__proto__` it becomes no entry at all. */
  lemma NestedObjectsUntouched(obj: Entries, i: int)
    requires DistinctKeys(obj)
    requires 0 <= i < |obj| && obj[i].1.Obj?
    ensures obj[i].0 != ProtoKey ==> obj[i] in TrimStrings(obj)
    ensures obj[i].0 == ProtoKey ==> obj[i].0 !in Keys(TrimStrings(obj))
  {
    TrimStringsEntrywise(obj);
    var r := TrimStrings(obj);
    var kept := WithoutProtoKey(obj);
    if obj[i].0 != ProtoKey {
      WithoutProtoKeyKeeps(obj, obj[i]);
      var j :| 0 <= j < |kept| && kept[j] == obj[i];
      assert r[j].0 == obj[i].0 by {
        assert Keys(r)[j] == Keys(kept)[j];
      }
      assert r[j].1 == obj[i].1 by {
        assert r[j].1 == TrimValue(kept[j].1);
      }
      assert r[j] == obj[i];
    }
  }

  // ---------------------------------------------------------------------------
  // IsNullable and IsUndefinable

  /** The two conditional rules: a field may be declared nullable, undefinable or both. */
  datatype Conditional = Nullable | Undefinable

  /** The condition registered for the rule on `propertyName`: when it is false,
      the field's other validators are skipped. `IsNullable` compares the field
      strictly with `null`, `IsUndefinable` strictly with `undefined`. */
  function ConditionHolds(rule: Conditional, obj: Entries, propertyName: string): (holds: bool) {
    match rule
    case Nullable => Get(obj, propertyName) != Null
    case Undefinable => Get(obj, propertyName) != Undefined
  }

  /** A field's other validators run only when every conditional rule on it holds. */
  function ValidatorsRun(rules: seq<Conditional>, obj: Entries, propertyName: string): (run: bool)
    ensures run <==> forall i :: 0 <= i < |rules| ==> ConditionHolds(rules[i], obj, propertyName)
    decreases |rules|
  {
    |rules| == 0 || (ConditionHolds(rules[0], obj, propertyName) && ValidatorsRun(rules[1..], obj, propertyName))
  }

  /** A nullable field skips its validators exactly when its value is `null`,
      an undefinable field exactly when it is `undefined` (an absent property
      included); neither exempts the other's value. */
  lemma ConditionsSkipExactly(obj: Entries, propertyName: string)
    ensures !ValidatorsRun([Nullable], obj, propertyName) <==> Get(obj, propertyName) == Null
    ensures !ValidatorsRun([Undefinable], obj, propertyName) <==> Get(obj, propertyName) == Undefined
    ensures propertyName !in Keys(obj) ==>
              ValidatorsRun([Nullable], obj, propertyName) && !ValidatorsRun([Undefinable], obj, propertyName)
    ensures (!ValidatorsRun([Nullable, Undefinable], obj, propertyName))
              <==> Get(obj, propertyName) in {Null, Undefined}
  {
  }

  // ---------------------------------------------------------------------------
  // IsFormattedDate

  /** date-fns' `isValid(parse(value, template, new Date()))`, which this model
      does not interpret: it yields whether the parsed date is valid, or the
      `RangeError` that `parse` throws on some templates. */
  type DateParser = (string, string) -> Result<bool, ErrorObject>

  /** The length check of the date rule: the template's `split("/")` is never
      empty, so the check compares the UTF-16 lengths of the text after the last
      `/` of the template and of the value. */
  function LastSegmentsDiffer(formatTemplate: string, value: string): (differ: bool)
    ensures differ <==> Utf16Length(LastSegment(formatTemplate, '/')) != Utf16Length(LastSegment(value, '/'))
    ensures differ <==> Utf16Length(formatTemplate[LastIndexOf(formatTemplate, '/') + 1..])
                        != Utf16Length(value[LastIndexOf(value, '/') + 1..])
  {
    var formatParts := Split(formatTemplate, '/');
    var dateParts := Split(value, '/');
    assert formatParts[|formatParts| - 1] == LastSegment(formatTemplate, '/')
        == formatTemplate[LastIndexOf(formatTemplate, '/') + 1..] by {
      LastSegmentAfterLastSep(formatTemplate, '/');
    }
    assert dateParts[|dateParts| - 1] == LastSegment(value, '/') == value[LastIndexOf(value, '/') + 1..] by {
      LastSegmentAfterLastSep(value, '/');
    }
    |formatParts| > 0 && Utf16Length(formatParts[|formatParts| - 1]) != Utf16Length(dateParts[|dateParts| - 1])
  }

  /** The `validate` of `IsFormattedDate(formatTemplate)`: a non-string fails,
      a value whose last `/`-segment differs in length from the template's
      fails, and otherwise the parser decides (an exception it throws escapes). */
  function IsFormattedDate(formatTemplate: string, value: Value, parse: DateParser): (r: Result<bool, ErrorObject>)
    ensures !value.Str? ==> r == Success(false)
    ensures (value.Str? && Utf16Length(LastSegment(formatTemplate, '/')) != Utf16Length(LastSegment(value.s, '/')))
              ==> r == Success(false)
    ensures r == Success(true) <==>
              && value.Str?
              && Utf16Length(formatTemplate[LastIndexOf(formatTemplate, '/') + 1..])
                 == Utf16Length(value.s[LastIndexOf(value.s, '/') + 1..])
              && parse(value.s, formatTemplate) == Success(true)
    ensures r.Failure? ==> value.Str? && r == parse(value.s, formatTemplate)
    ensures (&& value.Str?
             && Utf16Length(formatTemplate[LastIndexOf(formatTemplate, '/') + 1..])
                == Utf16Length(value.s[LastIndexOf(value.s, '/') + 1..])
             && parse(value.s, formatTemplate).Failure?)
              ==> r == parse(value.s, formatTemplate)
  {
    if !value.Str? then Success(false)
    else if LastSegmentsDiffer(formatTemplate, value.s) then Success(false)
    else parse(value.s, formatTemplate)
  }

  /** The date rule's outcome is decided without the parser whenever the value
      is not a string or its last `/`-segment length differs from the template's:
      any two parsers give the same answer, and neither can throw. */
  lemma DateRuleShortCircuits(formatTemplate: string, value: Value, p1: DateParser, p2: DateParser)
    requires !value.Str? ||
             Utf16Length(LastSegment(formatTemplate, '/')) != Utf16Length(LastSegment(value.s, '/'))
    ensures IsFormattedDate(formatTemplate, value, p1) == IsFormattedDate(formatTemplate, value, p2) == Success(false)
  {
  }

  /** The date rule's `defaultMessage`: `<propertyName> must be a valid
      <formatTemplate> date string`. */
  function DateDefaultMessage(propertyName: string, formatTemplate: string): (m: string)
    ensures |m| == |propertyName| + |formatTemplate| + 29
    ensures m[..|propertyName|] == propertyName
    ensures m[|propertyName|..|propertyName| + 17] == " must be a valid "
    ensures m[|m| - |formatTemplate| - 12..] == formatTemplate + " date string"
  {
    propertyName + " must be a valid " + formatTemplate + " date string"
  }

  /** For one template, distinct fields get distinct default messages. */
  lemma DateDefaultMessageNamesField(p1: string, p2: string, formatTemplate: string)
    requires DateDefaultMessage(p1, formatTemplate) == DateDefaultMessage(p2, formatTemplate)
    ensures p1 == p2
  {
    var m := DateDefaultMessage(p1, formatTemplate);
    assert p1 == m[..|p1|];
  }

  // ---------------------------------------------------------------------------
  // transformToClass, transformToClassUnsafe, transformToRequest

  /** A class: only its name is observable here. */
  datatype ClassType = ClassType(name: string)

  /** `validationError` options: whether class-validator copies the target and
      the value into each error. */
  datatype ErrorShape = ErrorShape(target: bool, value: bool)

  /** The validator options this code passes on. `whitelist` and `groups` may
      be left undefined; `otherOptions` holds every further option the caller
      sets (`skipMissingProperties`, `forbidNonWhitelisted`, ...), which this
      code forwards without reading. */
  datatype ValidatorOptions = ValidatorOptions(
    whitelist: Option<bool>,
    groups: Option<seq<string>>,
    validationError: Option<ErrorShape>,
    otherOptions: Entries)

  /** `{ whitelist: true, groups: undefined }`, the options of every entry
      point whose caller passes none. */
  const DefaultValidatorOptions := ValidatorOptions(Some(true), None, None, [])

  /** `{ ...options, validationError: { target: false, value: false } }`. */
  function ForValidation(options: ValidatorOptions): (o: ValidatorOptions)
    ensures o.whitelist == options.whitelist && o.groups == options.groups
    ensures o.otherOptions == options.otherOptions
    ensures o.validationError == Some(ErrorShape(false, false))
  {
    options.(validationError := Some(ErrorShape(false, false)))
  }

  /** Without options from the caller, `validate` strips unknown properties,
      checks every group and leaves target and value out of its errors. */
  lemma DefaultOptionsSeenByValidate()
    ensures ForValidation(DefaultValidatorOptions)
         == ValidatorOptions(Some(true), None, Some(ErrorShape(false, false)), [])
  {
  }

  /** class-transformer's `plainToClass`, which may throw. */
  type PlainToClass = (ClassType, Value) -> Result<Value, ErrorObject>

  /** What an awaited `validate(obj, options)` leaves behind: the instance as
      validation leaves it (with `whitelist`, its undeclared properties are
      deleted in place) and the error forest. */
  datatype Validated = Validated(instance: Value, errors: seq<ValidationError>)

  /** class-validator's `validate`, which may throw. */
  type Validate = (Value, ValidatorOptions) -> Result<Validated, ErrorObject>

  /** The outcome `transformToClass` promises for `plain`: whatever `plainToClass`
      or `validate` throws is rethrown unchanged; a non-empty error forest becomes
      a `TransformError` naming the class and carrying the forest; otherwise the
      result is the instance as `validate` left it. */
  predicate TransformOutcome(
    classType: ClassType, plain: Value, options: ValidatorOptions,
    plainToClass: PlainToClass, validate: Validate, r: Result<Value, ErrorObject>)
  {
    var coerced := plainToClass(classType, plain);
    && (coerced.Failure? ==> r == coerced)
    && (r.Success? <==>
          && coerced.Success?
          && validate(coerced.value, ForValidation(options)).Success?
          && |validate(coerced.value, ForValidation(options)).value.errors| == 0)
    && (coerced.Success? ==>
          var checked := validate(coerced.value, ForValidation(options));
          && (checked.Failure? ==> r == Failure(checked.error))
          && (checked.Success? && |checked.value.errors| == 0 ==> r == Success(checked.value.instance))
          && (checked.Success? && |checked.value.errors| > 0 ==>
                r == Failure(TransformError("TransformError: " + classType.name, checked.value.errors))))
  }

  /** `transformToClass`: coerce, validate, and throw a `TransformError` naming the
      class and carrying the forest when the forest is non-empty; otherwise
      return the instance as validation left it. Whatever the two libraries
      throw is rethrown unchanged. */
  function TransformToClass(
    classType: ClassType, plain: Value, options: ValidatorOptions,
    plainToClass: PlainToClass, validate: Validate): (r: Result<Value, ErrorObject>)
    ensures TransformOutcome(classType, plain, options, plainToClass, validate, r)
  {
    var obj :- plainToClass(classType, plain);
    var checked :- validate(obj, ForValidation(options));
    if |checked.errors| > 0 then
      Failure(NewTransformError("TransformError: " + classType.name, checked.errors))
    else
      Success(checked.instance)
  }

  /** `transformToClassUnsafe`: `transformToClass` on a value given without
      its type, with the same outcomes: the validated instance when validation
      finds nothing, a `TransformError` when it finds something, and whatever
      either library throws, unchanged. */
  function TransformToClassUnsafe(
    classType: ClassType, plain: Value, options: ValidatorOptions,
    plainToClass: PlainToClass, validate: Validate): (r: Result<Value, ErrorObject>)
    ensures TransformOutcome(classType, plain, options, plainToClass, validate, r)
  {
    TransformToClass(classType, plain, options, plainToClass, validate)
  }

  /** `transformToRequest`: trim the top-level strings, transform, and turn every
      failure into a status-400 `HttpErrorResponse` whose body is the error as
      thrown. */
  function TransformToRequest(
    classType: ClassType, plain: Entries, options: ValidatorOptions,
    plainToClass: PlainToClass, validate: Validate): (r: Result<Value, ErrorObject>)
    ensures var inner := TransformToClass(classType, Obj(TrimStrings(plain)), options, plainToClass, validate);
            && (r.Success? <==> inner.Success?)
            && (r.Success? ==> r.value == inner.value)
            && (r.Failure? ==> r.error == HttpErrorResponse(inner.error.message, 400, inner.error))
  {
    match TransformToClassUnsafe(classType, Obj(TrimStrings(plain)), options, plainToClass, validate)
    case Success(obj) => Success(obj)
    case Failure(err) => Failure(NewHttpErrorResponse(400, err))
  }

  /** Every failure of `transformToRequest` is a status-400 `HttpErrorResponse`. */
  lemma RequestFailuresAre400(
    classType: ClassType, plain: Entries, options: ValidatorOptions,
    plainToClass: PlainToClass, validate: Validate)
    ensures var r := TransformToRequest(classType, plain, options, plainToClass, validate);
            r.Failure? ==> r.error.HttpErrorResponse? && r.error.statusCode == 400
  {
  }

  /** The request is trimmed before it is transformed: a request whose strings
      are already trimmed has the same outcome as the raw one. */
  lemma RequestSeesTrimmedInput(
    classType: ClassType, plain: Entries, options: ValidatorOptions,
    plainToClass: PlainToClass, validate: Validate)
    requires DistinctKeys(plain)
    ensures TransformToRequest(classType, TrimStrings(plain), options, plainToClass, validate)
         == TransformToRequest(classType, plain, options, plainToClass, validate)
  {
    TrimStringsIdempotent(plain);
  }

  /** A validation failure reaches the caller of `transformToRequest` as a 400
      whose message is `TransformError: <class name>` and whose body is the
      `TransformError` with the unrendered forest: the report built by
      `parseValidationErrors` is not part of it. */
  lemma RequestValidationFailureBody(
    classType: ClassType, plain: Entries, options: ValidatorOptions,
    plainToClass: PlainToClass, validate: Validate, coerced: Value, instance: Value, errors: seq<ValidationError>)
    requires plainToClass(classType, Obj(TrimStrings(plain))) == Success(coerced)
    requires validate(coerced, ForValidation(options)) == Success(Validated(instance, errors))
    requires |errors| > 0
    ensures TransformToRequest(classType, plain, options, plainToClass, validate)
         == Failure(HttpErrorResponse("TransformError: " + classType.name, 400,
                                      TransformError("TransformError: " + classType.name, errors)))
  {
  }
}

=== FILE: wrappers.dfy ===
/** Option and Result, the two failure-carrying datatypes the rest of the model uses. */
module Wrappers {

  /** A value that may be absent: JavaScript's `undefined`/`null` for an optional field. */
  datatype Option<+T> = None | Some(value: T)

  /** The completion of a call: a returned value or a thrown error object. */
  datatype Result<+R, +E> = Success(value: R) | Failure(error: E) {

    predicate IsFailure() {
      Failure?
    }

    function PropagateFailure<U>(): Result<U, E>
      requires Failure?
    {
      Failure(error)
    }

    function Extract(): R
      requires Success?
    {
      value
    }
  }
}
